=== FILE: README.md ===
# Task manager: task store and task list, modelled in Dafny

This project models the core of a personal task manager. The backend keeps
task documents per user and offers create, list (with status, priority and
search filters, sorted by due date), update, delete and CSV export. Every
route receives the authenticated user's id. The frontend dashboard keeps the
task list as client state, filters it locally, shows counters, and updates it
after create, update, delete and status toggle. The task form builds the
payload it submits.

Modules, one per source file or shared concept:

- `Wrappers` (wrappers.dfy): `Option` and `Result`.
- `Text` (text.dfy): case-insensitive substring search. It is used by both the
  server's `$regex` search with the `i` option and the client's
  lower-cased `includes`.
- `Seqs` (seqs.dfy): `filter` and `filter(...).length` over sequences, with
  membership, multiplicity, order and counting lemmas.
- `TaskSchema` (task_schema.dfy): the task schema. It holds the priority and
  status enumerations, the defaults, the required fields, the timestamps, and
  the validation run at creation.
- `DueOrder` (due_order.dfy): the ascending due-date order of the list operation. Tasks without
  a due date come first.
- `TaskQuery` (task_query.dfy): the query builder for the list operation, the
  meaning of a query on one task, and the selection of matching tasks.
- `TaskController` (task_controller.dfy): the five handlers over a store,
  which is a sequence of task documents in natural order.
- `Dashboard` (dashboard.dfy): the client task record, the filter, the
  counters and the list updates.
- `TaskForm` (task_form.dfy): the form's state, its setters, the submitted
  payload, and what the server stores from that payload.

Behaviour of the code that the model keeps as written:

- `createTask` takes `completed` from the body, or the default `false`. It
  never derives it from `status`. See `CreateDoesNotSyncCompleted`.
- `updateTask` applies the body as given, `userId` included. It does not
  re-derive `completed` from `status`, and a body with a `userId` moves the
  task to that account. See `UpdateLeavesCompletedStale` and
  `UpdateReassignsOwner`.
- `completed` and `status` stay in step only because the form always derives
  `completed` from `status`. See `FormCreateInSync` and `FormUpdateInSync`.
- The server's status filter tests the `completed` flag. The client's status
  filter tests the `status` field.
- The server tests the `priority` and `search` parameters by JavaScript truthiness. An empty
  `priority` or `search` parameter adds no constraint, just like an absent one.

Assumptions made explicit:

- The authenticated user id, the generated `_id`, the clock (`now`), and date
  casting and formatting are parameters.
- A search term is treated as a literal string, so it is assumed to contain no
  regular-expression metacharacters.
- Case folding covers ASCII letters only.
- Due dates are abstract integers. A missing due date (`None`) sorts before
  any date.

## Model

| member | source | states |
|---|---|---|
| `Text.Lower` | frontend/components/task-dashboard.tsx:92-93 | lower-casing keeps the length and maps each character by the ASCII case rule |
| `Text.ContainsIsSubstring` | frontend/components/task-dashboard.tsx:92-93 | the scanning `includes` is true exactly when the needle occurs at some position of the text (both directions) |
| `Text.EmptyAlwaysContained` | frontend/components/task-dashboard.tsx:91-93 | every text contains the empty search term |
| `Text.IgnoreCaseMeaning` | backend/controllers/taskController.js:27-28 | a case-insensitive match is exactly a literal occurrence of the lowered term in the lowered text |
| `Text.IgnoreCaseOfLoweredTerm` | backend/controllers/taskController.js:27-28 | lower-casing the term beforehand does not change a case-insensitive search |
| `TaskSchema.ParsePriority` | backend/models/Tasks.js:6 | a recognised priority string is the name of the enumeration value it parses to |
| `TaskSchema.PriorityRoundTrip` | backend/models/Tasks.js:6 | each of low/medium/high parses back to itself |
| `TaskSchema.ParseStatus` | backend/models/Tasks.js:7 | a recognised status string is the name of the value it parses to |
| `TaskSchema.StatusRoundTrip` | backend/models/Tasks.js:7 | pending/completed parse back to themselves |
| `TaskSchema.FailingPaths` | backend/models/Tasks.js:4-10 | `title` fails iff missing or empty; `priority`/`status` fail iff present and outside their enumeration; `userId` fails iff missing or empty |
| `TaskSchema.Instantiate` | backend/models/Tasks.js:3-13 | creation fails with exactly the failing paths, or yields a valid task (non-empty title and owner, enum values, createdAt = updatedAt = now) with priority low, status pending and completed false for absent fields |
| `TaskSchema.DefaultsApplied` | backend/models/Tasks.js:6-9 | a body with only title and owner becomes a low, pending, uncompleted task |
| `DueOrder.DueLeTotalPreorder` | backend/controllers/taskController.js:33 | the due-date order is reflexive, total and transitive |
| `DueOrder.NoneFirst` | backend/controllers/taskController.js:33 | a missing due date sorts before every due date and never after one |
| `DueOrder.Insert` | backend/controllers/taskController.js:33 | inserting into a due-date-sorted list keeps it sorted and adds exactly that task |
| `DueOrder.SortByDue` | backend/controllers/taskController.js:33 | the sorted list is non-decreasing by due date and a permutation of its input |
| `TaskQuery.Present` | backend/controllers/taskController.js:23-25 | a parameter counts as given iff it is present and non-empty |
| `TaskQuery.CompletedConstraint` | backend/controllers/taskController.js:20-21 | status "completed" requires completed = true, "pending" requires false, and nothing else adds a constraint |
| `TaskQuery.BuildQuery` | backend/controllers/taskController.js:17-30 | the query's owner is always the requester; its other predicates come only from the given, non-empty parameters |
| `TaskQuery.Select` | backend/controllers/taskController.js:33 | the selection holds every matching stored task as often as it is stored, and nothing else |
| `TaskQuery.SelectMembers` | backend/controllers/taskController.js:33 | a task is selected iff it is stored and matches the query |
| `TaskQuery.MatchesBuiltQuery` | backend/controllers/taskController.js:18-33 | a task matches iff it is owned by the requester AND passes each given filter (completed flag, priority, title-or-description search) |
| `TaskQuery.OwnerPredicateAlways` | backend/controllers/taskController.js:18 | for every combination of parameters, only the requester's tasks match |
| `TaskQuery.CompletedFilterExact` | backend/controllers/taskController.js:20 | status=completed keeps exactly the completed tasks of what the other filters keep |
| `TaskQuery.PendingFilterExact` | backend/controllers/taskController.js:21 | status=pending keeps exactly the tasks with completed = false |
| `TaskQuery.OtherStatusNoConstraint` | backend/controllers/taskController.js:20-21 | any other status value matches the same tasks as no status |
| `TaskQuery.PriorityFilterExact` | backend/controllers/taskController.js:23 | a given priority keeps exactly the tasks with that priority |
| `TaskQuery.SearchFilterExact` | backend/controllers/taskController.js:25-30 | a given search keeps exactly the tasks whose title or description contains it, ignoring case |
| `TaskController.Create` | backend/controllers/taskController.js:6-13 | on success the task is appended and owned by the requester, with the body's `_id` (or the generated one), title, description and due date; it succeeds iff title, enums and owner are valid and the id is new; on failure the store is unchanged; a missing title fails on `title` |
| `TaskController.CreatePreservesValidStore` | backend/controllers/taskController.js:8 | creation keeps every stored task valid and ids unique |
| `TaskController.CreatePreservesUniqueIds` | backend/controllers/taskController.js:6-13 | creation keeps every `_id` unique from any store with unique ids, because the unique index refuses a stored `_id` |
| `TaskController.CreateIgnoresBodyOwner` | backend/controllers/taskController.js:8 | a `userId` in the body has no effect on the result |
| `TaskController.CreateDoesNotSyncCompleted` | backend/controllers/taskController.js:8 | a task created with status "completed" and no flag is stored with completed = false |
| `TaskController.GetTasks` | backend/controllers/taskController.js:16-38 | the list is sorted by due date, only holds the requester's tasks, and is a permutation of the matching stored tasks |
| `TaskController.GetTasksMembers` | backend/controllers/taskController.js:33 | a task is listed iff it is stored and matches the built query |
| `TaskController.CreateThenListed` | backend/controllers/taskController.js:8-33 | a created task appears in its owner's unfiltered list, and every other user's filtered list holds the same tasks as before |
| `TaskController.ListIsolation` | backend/controllers/taskController.js:18 | another user's task is never listed |
| `TaskController.FindOwned` | backend/controllers/taskController.js:43-44 | finds the first task with that id and owner, or reports that none exists |
| `TaskController.Patch` | backend/controllers/taskController.js:45 | every field in the body overwrites the stored one (owner included); the rest are kept; createdAt is kept and updatedAt is now |
| `TaskController.Update` | backend/controllers/taskController.js:41-53 | NotFound iff no task has that id and owner, with the store unchanged; otherwise exactly that task is replaced by its patch; other users' tasks are untouched |
| `TaskController.UpdateTimestamps` | backend/models/Tasks.js:12 | with a clock not behind creation, an updated task has updatedAt = now >= createdAt |
| `TaskController.UpdateReassignsOwner` | backend/controllers/taskController.js:45 | an update body with a `userId` moves the task to that user, and it vanishes from the requester's list |
| `TaskController.UpdateLeavesCompletedStale` | backend/controllers/taskController.js:45 | setting status to "completed" by update leaves completed false |
| `TaskController.UpdatePreservesUniqueIds` | backend/controllers/taskController.js:41-53 | an update keeps the ids unique, because it changes the fields of one matched task but never its `_id` |
| `TaskController.Delete` | backend/controllers/taskController.js:56-64 | NotFound iff no task has that id and owner, with the store unchanged; otherwise one such task is cut out and the length drops by one |
| `TaskController.DeleteRemovesOne` | backend/controllers/taskController.js:58 | the new store plus the first task matching id and owner is exactly the old store as a multiset |
| `TaskController.DeletePreservesValidStore` | backend/controllers/taskController.js:58 | deletion keeps the store valid |
| `TaskController.DeletePreservesUniqueIds` | backend/controllers/taskController.js:56-64 | deletion keeps the ids unique from any store with unique ids |
| `TaskController.DeleteTwiceNotFound` | backend/controllers/taskController.js:58-59 | with unique ids, deleting the same id again answers NotFound and changes nothing |
| `TaskController.DeleteThenNotListed` | backend/controllers/taskController.js:33-59 | with unique ids, a task with the deleted id is no longer listed under any filters |
| `TaskController.NotFoundIndistinguishable` | backend/controllers/taskController.js:43-59 | a missing id and another user's id give the same NotFound reply, with the store unchanged, from both update and delete |
| `TaskController.MutationIsolation` | backend/controllers/taskController.js:43-58 | update and delete leave every task of another user in the store |
| `TaskController.Project` | backend/controllers/taskController.js:77 | a row carries the task's title, description, priority, dueDate and completed |
| `TaskController.ProjectAll` | backend/controllers/taskController.js:77-82 | one row per task, in order, each the projection of that task |
| `TaskController.Export` | backend/controllers/taskController.js:67-92 | NoData iff the requester owns no task; otherwise as many rows as owned tasks, every owned task's row present, and each row from a task the requester owns |
| `TaskController.ExportRowsPerTask` | backend/controllers/taskController.js:70-82 | a successful export is the projection of a subsequence of the store (so in store order) that holds each owned task exactly as often as it is stored, and no other task |
| `TaskController.ExportMatchesList` | backend/controllers/taskController.js:70 | a successful export has as many rows as the requester's unfiltered list has tasks |
| `Dashboard.Visible` | frontend/components/task-dashboard.tsx:89-101 | every shown task passes the search, status and priority tests |
| `Dashboard.VisibleIsSubsequence` | frontend/components/task-dashboard.tsx:90 | the shown list is an order-preserving subsequence of the tasks |
| `Dashboard.VisibleMembers` | frontend/components/task-dashboard.tsx:91-97 | a task is shown iff it is in the list, its title or description contains the term ignoring case, and each select is "all" or equal to its field; each shown task appears exactly as often as in the list |
| `Dashboard.NoFiltersShowsAll` | frontend/components/task-dashboard.tsx:91-95 | an empty search with both selects at "all" shows every task in order |
| `Dashboard.CountersPartition` | frontend/components/task-dashboard.tsx:262-263 | completed + pending <= number of tasks, with equality when every status is pending or completed |
| `Dashboard.HighPriorityWithinPending` | frontend/components/task-dashboard.tsx:263-264 | the high-priority counter never exceeds the pending counter |
| `Dashboard.AfterCreate` | frontend/components/task-dashboard.tsx:106-123 | a failed request leaves the list unchanged; otherwise the created task goes at the end and the old list is its prefix |
| `Dashboard.ReplaceWhere` | frontend/components/task-dashboard.tsx:136 | the length is kept; tasks with the id become the replacement and all others stay in place |
| `Dashboard.AfterUpdate` | frontend/components/task-dashboard.tsx:129-151 | with no task being edited, or a failed request, nothing changes; otherwise only tasks with the edited `_id` are replaced by the answer |
| `Dashboard.AfterDelete` | frontend/components/task-dashboard.tsx:154-174 | a failed request leaves the list unchanged; after a successful one no task with the deleted id remains |
| `Dashboard.WithoutId` | frontend/components/task-dashboard.tsx:161 | no task with that id remains |
| `Dashboard.AfterDeleteExact` | frontend/components/task-dashboard.tsx:161 | after a successful delete a task remains iff it was present and has another id, in the original order and exactly as often as before |
| `Dashboard.DeleteAbsentId` | frontend/components/task-dashboard.tsx:161 | deleting an id no task carries changes nothing |
| `Dashboard.CreateThenDeleteRestores` | frontend/components/task-dashboard.tsx:109-161 | deleting a just-created task whose id nothing else carries gives back the list before the create |
| `Dashboard.CreateCounters` | frontend/components/task-dashboard.tsx:262-264 | a created task raises exactly the counters its status and priority fall under, by one |
| `Dashboard.UpdateOnlyEditedId` | frontend/components/task-dashboard.tsx:136 | an update whose answer keeps the edited id leaves every task with another id as it was |
| `Dashboard.ToggledStatus` | frontend/components/task-dashboard.tsx:181 | the target status differs from the current one, is pending or completed, and is pending iff the task was completed |
| `Dashboard.ToggleTwice` | frontend/components/task-dashboard.tsx:181 | toggling a valid status twice restores it |
| `Dashboard.FindById` | frontend/components/task-dashboard.tsx:178 | finds the first listed task with that id, or reports that none exists |
| `Dashboard.ToggleRequest` | frontend/components/task-dashboard.tsx:177-186 | nothing is sent iff no task has the id; otherwise the request asks for the opposite of the status of the first task with that id |
| `Dashboard.AfterToggle` | frontend/components/task-dashboard.tsx:177-189 | the list is unchanged if the task is missing or the request failed; otherwise the server's answer replaces the tasks with that id |
| `Dashboard.ToggleIsUpdateOfFirst` | frontend/components/task-dashboard.tsx:178-189 | a toggle that gets an answer updates the list exactly as an update of the first task with that id would |
| `TaskForm.InitialState` | frontend/components/task-form.tsx:29-47 | a new form is blank with medium/pending; an edit form copies title, description and status, uses medium for an empty priority, and leaves the date empty when the task has none |
| `TaskForm.OnPriorityChange` | frontend/components/task-form.tsx:114-118 | a low/medium/high value sets the priority; any other value leaves the state unchanged |
| `TaskForm.OnStatusChange` | frontend/components/task-form.tsx:138-142 | a pending/completed value sets the status; any other value leaves the state unchanged |
| `TaskForm.SettersKeepEnums` | frontend/components/task-form.tsx:114-142 | valid priority and status stay valid through any select change |
| `TaskForm.InitialStateEnums` | frontend/components/task-form.tsx:29-47 | a form opened blank, or on a task with a valid status and a valid or empty priority, starts with valid enums |
| `TaskForm.SubmitPayload` | frontend/components/task-form.tsx:54-61 | the payload has completed iff status is "completed", and every other field equals the form state |
| `TaskForm.EditSubmitUnchanged` | frontend/components/task-form.tsx:29-61 | submitting an unchanged edit form sends the task's title, description, status and non-empty priority, with `completed` agreeing with the status |
| `TaskForm.PayloadBody` | frontend/lib/task-api.ts:9-20 | the server receives every payload field, with no `_id` or owner |
| `TaskForm.FormCreateInSync` | frontend/components/task-form.tsx:60 | a task the server creates from a form payload has completed iff status is "completed" |
| `TaskForm.FormUpdateInSync` | frontend/components/task-form.tsx:60 | a task the server updates from a form payload has completed iff status is "completed" |
| `TaskForm.NewFormStoresMedium` | frontend/components/task-form.tsx:41-45 | a new task submitted at the form defaults is stored as medium and pending, not at the schema default low |
| `TaskForm.EmptyTitleRefused` | backend/models/Tasks.js:4 | a payload with an empty title is refused with a validation error on `title`, and the store is unchanged |

## Left out

- Routing and authentication middleware: every handler takes the resolved user id as a trusted parameter. Token verification is not part of this model.
- HTTP status codes and response messages are transport wiring: 201/200/400/404/500 and the JSON bodies. The model stops at the typed `Error`.
- Store faults, which the handlers answer with 500, are not modelled.
- Id generation is a parameter (`freshId`). Ids are abstract strings, so a malformed `_id` is not modelled. For such an id the store raises a cast error instead of answering NotFound.
- Body values are typed as the schema's types. Mongoose's casting of other JSON types is not modelled, nor is `null` for any field other than `dueDate`.
- TaskController.Update: an owner id in the update body is stored without the ObjectId cast. In the code, a malformed owner id ("" included) raises a cast error, answered 400 with the store unchanged.
- TaskQuery.BuildQuery: each list parameter is taken as one string. The code passes query values through untouched. A repeated `priority` arrives as an array, which the store matches as "any of these priorities". An operator object such as `priority[$ne]=low` becomes "priority is not low". A repeated `search` fails the string cast, and the list answers 500. The owner predicate is unaffected by any of these, so isolation still holds, but `PriorityFilterExact` holds only for a single string.
- A request body's `createdAt`/`updatedAt`, and an `_id` in an update body, are ignored by the model.
- Full regular-expression semantics of `$regex` are not modelled. The search term is taken as a literal string.
- Text.Lower: case folding covers ASCII letters only. JavaScript's `toLowerCase` and the regex `i` option fold all of Unicode.
- Among tasks with equal due dates, the store promises no order. The model orders them by insertion (a stable sort), and no contract states that order.
- CSV text formatting by the CSV libraries is not modelled. Export stops at the projected rows.
- Date parsing and formatting are function parameters: `castDate` on the server and `toDay` in the form. The card's overdue check against the wall clock is not modelled.
- Client plumbing is not modelled: fetch, localStorage, toasts, and `normalizeTask`, which is a field-by-field copy, so the model receives the server's task already as a `ClientTask`.
- The toggle's `PATCH /tasks/:id/status` has no backend route. The server's answer is a parameter of `AfterToggle`. Against this backend every toggle request gets a 404, `apiCall` throws, and the list never changes: that is `AfterToggle` with `answer == None`. The `Some` branch describes a route the backend does not have.
- A server task without a description cannot be represented on the client, because the client's type makes `description` a string. The schema makes the description optional, and the client copies the missing value through. The dashboard filter then throws a TypeError whenever the search term is non-empty and absent from that task's title. The model does not show that failure.
- The unguarded title, description and due-date setters of the form, and its submitting flag, are not modelled. Rendering and JSX are not modelled.
- Concurrency is not modelled: requests are taken one at a time, so last-writer-wins on the same task does not arise.

=== FILE: dashboard.dfy ===
/**
 * The dashboard's task list as client state: the task record it receives from
 * the server, the filter it applies on every change of the search box or the
 * two select boxes, its counters, and the list updates after create, update,
 * delete and status toggle.
 */
module Dashboard {
  import opened Wrappers
  import opened Text
  import opened Seqs

  /** The client's task record; dates are the strings the server sends. */
  datatype ClientTask = ClientTask(
    id: Option<string>,
    title: string,
    description: string,
    priority: string,
    status: string,
    dueDate: string,
    completed: Option<bool>,
    createdAt: string,
    updatedAt: Option<string>,
    userId: string)

  /** The filter controls; "all" in a select box means no constraint. */
  datatype Filters = Filters(searchTerm: string, statusFilter: string, priorityFilter: string)

  const All: string := "all"

  /** Literal case-insensitive `includes` on title or description. */
  predicate MatchesSearch(t: ClientTask, term: string) {
    ContainsIgnoreCase(t.title, term) || ContainsIgnoreCase(t.description, term)
  }

  /** The client keeps a task when the search, status and priority tests all pass; status is the `status` field. */
  predicate Keep(f: Filters, t: ClientTask) {
    && MatchesSearch(t, f.searchTerm)
    && (f.statusFilter == All || t.status == f.statusFilter)
    && (f.priorityFilter == All || t.priority == f.priorityFilter)
  }

  /** The list shown under the current filters. */
  function Visible(tasks: seq<ClientTask>, f: Filters): (r: seq<ClientTask>)
    ensures forall t :: t in r ==> Keep(f, t)
    ensures |r| <= |tasks|
  {
    Filter(tasks, t => Keep(f, t))
  }

  /** The shown list is an order-preserving subsequence of the tasks. */
  lemma VisibleIsSubsequence(tasks: seq<ClientTask>, f: Filters)
    ensures IsSubsequence(Visible(tasks, f), tasks)
  {
    FilterIsSubsequence(tasks, t => Keep(f, t));
  }

  /** A task is shown exactly when it is in the list and passes every test. */
  lemma VisibleMembers(tasks: seq<ClientTask>, f: Filters, t: ClientTask)
    ensures t in Visible(tasks, f) <==>
      && t in tasks
      && (ContainsIgnoreCase(t.title, f.searchTerm) || ContainsIgnoreCase(t.description, f.searchTerm))
      && (f.statusFilter == All || t.status == f.statusFilter)
      && (f.priorityFilter == All || t.priority == f.priorityFilter)
    ensures multiset(Visible(tasks, f))[t] == if Keep(f, t) then multiset(tasks)[t] else 0
  {
    FilterMembers(tasks, t => Keep(f, t), t);
    FilterCounts(tasks, t => Keep(f, t), t);
  }

  /** An empty search with both selects at "all" shows every task, in order. */
  lemma NoFiltersShowsAll(tasks: seq<ClientTask>)
    ensures Visible(tasks, Filters("", All, All)) == tasks
  {
    forall i | 0 <= i < |tasks|
      ensures Keep(Filters("", All, All), tasks[i])
    {
      EmptyAlwaysContained(Lower(tasks[i].title));
    }
    FilterKeepsAll(tasks, t => Keep(Filters("", All, All), t));
  }

  // -------------------------------------------------------------- counters

  predicate IsCompleted(t: ClientTask) { t.status == "completed" }
  predicate IsPending(t: ClientTask) { t.status == "pending" }
  predicate IsHighPending(t: ClientTask) { t.priority == "high" && t.status == "pending" }

  function CompletedCount(tasks: seq<ClientTask>): nat {
    Count(tasks, IsCompleted)
  }

  function PendingCount(tasks: seq<ClientTask>): nat {
    Count(tasks, IsPending)
  }

  /** High-priority tasks still pending. */
  function HighPriorityCount(tasks: seq<ClientTask>): nat {
    Count(tasks, IsHighPending)
  }

  /** Completed and pending together are at most all tasks, and exactly all when every status is one of the two. */
  lemma CountersPartition(tasks: seq<ClientTask>)
    ensures CompletedCount(tasks) + PendingCount(tasks) <= |tasks|
    ensures (forall i :: 0 <= i < |tasks| ==> tasks[i].status in {"pending", "completed"}) ==>
      CompletedCount(tasks) + PendingCount(tasks) == |tasks|
  {
    CountExclusive(tasks, IsCompleted, IsPending);
  }

  /** Every counted high-priority task is also a counted pending task. */
  lemma HighPriorityWithinPending(tasks: seq<ClientTask>)
    ensures HighPriorityCount(tasks) <= PendingCount(tasks)
  {
    CountMonotone(tasks, IsHighPending, IsPending);
  }

  // ---------------------------------------------------------- list updates

  /**
   * After a create, given the server's answer (`None` when the request
   * failed and the list is left alone): the created task is appended.
   */
  function AfterCreate(tasks: seq<ClientTask>, answer: Option<ClientTask>): (r: seq<ClientTask>)
    ensures answer.None? ==> r == tasks
    ensures answer.Some? ==> |r| == |tasks| + 1 && r[..|tasks|] == tasks && r[|tasks|] == answer.value
  {
    if answer.None? then tasks else tasks + [answer.value]
  }

  /** Every task whose `_id` equals `id` is replaced by `replacement`; the rest stay in place. */
  function ReplaceWhere(tasks: seq<ClientTask>, id: Option<string>, replacement: ClientTask): (r: seq<ClientTask>)
    ensures |r| == |tasks|
    ensures forall i :: 0 <= i < |tasks| && tasks[i].id == id ==> r[i] == replacement
    ensures forall i :: 0 <= i < |tasks| && tasks[i].id != id ==> r[i] == tasks[i]
  {
    seq(|tasks|, i requires 0 <= i < |tasks| => if tasks[i].id == id then replacement else tasks[i])
  }

  /**
   * After an update of the task being edited, given the server's answer
   * (`None` when the request failed): the answer replaces the tasks with the
   * edited task's `_id`. With no task being edited no request is made and
   * nothing changes.
   */
  function AfterUpdate(tasks: seq<ClientTask>, editing: Option<ClientTask>, answer: Option<ClientTask>): (r: seq<ClientTask>)
    ensures |r| == |tasks|
    ensures editing.None? || answer.None? ==> r == tasks
    ensures editing.Some? && answer.Some? ==> forall i :: 0 <= i < |tasks| ==>
      r[i] == if tasks[i].id == editing.value.id then answer.value else tasks[i]
  {
    if editing.None? || answer.None? then tasks else ReplaceWhere(tasks, editing.value.id, answer.value)
  }

  /** The list without the tasks carrying `_id` `taskId`. */
  function WithoutId(tasks: seq<ClientTask>, taskId: string): (r: seq<ClientTask>)
    ensures forall t :: t in r ==> t.id != Some(taskId)
    ensures |r| <= |tasks|
  {
    Filter(tasks, (t: ClientTask) => t.id != Some(taskId))
  }

  /** After a delete: the tasks with that `_id` are dropped when the request succeeded, and the list is left alone when it failed. */
  function AfterDelete(tasks: seq<ClientTask>, taskId: string, deleted: bool): (r: seq<ClientTask>)
    ensures deleted ==> forall t :: t in r ==> t.id != Some(taskId)
    ensures !deleted ==> r == tasks
  {
    if deleted then WithoutId(tasks, taskId) else tasks
  }

  /** A successful delete removes exactly the tasks with that `_id` and keeps the others in order. */
  lemma AfterDeleteExact(tasks: seq<ClientTask>, taskId: string, t: ClientTask)
    ensures t in AfterDelete(tasks, taskId, true) <==> t in tasks && t.id != Some(taskId)
    ensures IsSubsequence(AfterDelete(tasks, taskId, true), tasks)
    ensures multiset(AfterDelete(tasks, taskId, true))[t] == if t.id != Some(taskId) then multiset(tasks)[t] else 0
  {
    FilterMembers(tasks, (t: ClientTask) => t.id != Some(taskId), t);
    FilterCounts(tasks, (t: ClientTask) => t.id != Some(taskId), t);
    FilterIsSubsequence(tasks, (t: ClientTask) => t.id != Some(taskId));
  }

  /** Deleting an id no task carries leaves the list unchanged. */
  lemma DeleteAbsentId(tasks: seq<ClientTask>, taskId: string, deleted: bool)
    requires forall i :: 0 <= i < |tasks| ==> tasks[i].id != Some(taskId)
    ensures AfterDelete(tasks, taskId, deleted) == tasks
  {
    FilterKeepsAll(tasks, (t: ClientTask) => t.id != Some(taskId));
  }

  /** Deleting a task just created, under an id nothing else carries, restores the list. */
  lemma CreateThenDeleteRestores(tasks: seq<ClientTask>, created: ClientTask, taskId: string)
    requires created.id == Some(taskId)
    requires forall i :: 0 <= i < |tasks| ==> tasks[i].id != Some(taskId)
    ensures AfterDelete(AfterCreate(tasks, Some(created)), taskId, true) == tasks
  {
    var p := (t: ClientTask) => t.id != Some(taskId);
    FilterConcat(tasks, [created], p);
    FilterKeepsAll(tasks, p);
    assert Filter([created], p) == [];
  }

  /** A created task adds one to the counter of its status and leaves the other counter alone. */
  lemma CreateCounters(tasks: seq<ClientTask>, created: ClientTask)
    ensures CompletedCount(AfterCreate(tasks, Some(created))) == CompletedCount(tasks) + (if IsCompleted(created) then 1 else 0)
    ensures PendingCount(AfterCreate(tasks, Some(created))) == PendingCount(tasks) + (if IsPending(created) then 1 else 0)
    ensures HighPriorityCount(AfterCreate(tasks, Some(created))) == HighPriorityCount(tasks) + (if IsHighPending(created) then 1 else 0)
  {
    FilterConcat(tasks, [created], IsCompleted);
    FilterConcat(tasks, [created], IsPending);
    FilterConcat(tasks, [created], IsHighPending);
  }

  /** An update whose answer keeps the edited `_id` changes only tasks with that id: without them, the list is as before. */
  lemma UpdateOnlyEditedId(tasks: seq<ClientTask>, editing: ClientTask, answer: ClientTask, taskId: string)
    requires editing.id == Some(taskId) && answer.id == Some(taskId)
    ensures WithoutId(AfterUpdate(tasks, Some(editing), Some(answer)), taskId) == WithoutId(tasks, taskId)
  {
    var r := AfterUpdate(tasks, Some(editing), Some(answer));
    FilterAgree(r, tasks, (t: ClientTask) => t.id != Some(taskId));
  }

  /** The status a toggle asks for: completed becomes pending, anything else completed. */
  function ToggledStatus(status: string): (r: string)
    ensures r != status
    ensures r in {"pending", "completed"}
    ensures r == "pending" <==> status == "completed"
  {
    if status == "completed" then "pending" else "completed"
  }

  /** Toggling twice returns a valid status to itself. */
  lemma ToggleTwice(status: string)
    requires status in {"pending", "completed"}
    ensures ToggledStatus(ToggledStatus(status)) == status
  {
  }

  /** The position of the first listed task with that id, if any. */
  function FindById(tasks: seq<ClientTask>, taskId: string): (r: Option<nat>)
    ensures r.None? <==> forall i :: 0 <= i < |tasks| ==> tasks[i].id != Some(taskId)
    ensures r.Some? ==> r.value < |tasks| && tasks[r.value].id == Some(taskId)
    ensures r.Some? ==> forall j :: 0 <= j < r.value ==> tasks[j].id != Some(taskId)
    decreases |tasks|
  {
    if |tasks| == 0 then None
    else if tasks[0].id == Some(taskId) then Some(0)
    else
      match FindById(tasks[1..], taskId)
      case None => None
      case Some(k) => Some(k + 1)
  }

  /** The status the toggle request sends, the opposite of the first task with that id; `None` when no task has that id and nothing is sent. */
  function ToggleRequest(tasks: seq<ClientTask>, taskId: string): (r: Option<string>)
    ensures r.None? <==> forall i :: 0 <= i < |tasks| ==> tasks[i].id != Some(taskId)
    ensures r.Some? ==>
      exists i :: 0 <= i < |tasks| && tasks[i].id == Some(taskId) &&
                  (forall j :: 0 <= j < i ==> tasks[j].id != Some(taskId)) &&
                  r.value == ToggledStatus(tasks[i].status)
  {
    match FindById(tasks, taskId)
    case None => None
    case Some(i) => Some(ToggledStatus(tasks[i].status))
  }

  /**
   * The list after a toggle, given the server's answer (`None` when the
   * request failed): the answer replaces the tasks with that id.
   */
  function AfterToggle(tasks: seq<ClientTask>, taskId: string, answer: Option<ClientTask>): (r: seq<ClientTask>)
    ensures |r| == |tasks|
    ensures ToggleRequest(tasks, taskId).None? || answer.None? ==> r == tasks
    ensures answer.Some? ==> forall i :: 0 <= i < |tasks| ==>
      r[i] == if tasks[i].id == Some(taskId) then answer.value else tasks[i]
  {
    if ToggleRequest(tasks, taskId).None? || answer.None? then tasks
    else ReplaceWhere(tasks, Some(taskId), answer.value)
  }

  /** A toggle with an answer is the same list update as an update of the first task with that id. */
  lemma ToggleIsUpdateOfFirst(tasks: seq<ClientTask>, taskId: string, answer: ClientTask)
    requires FindById(tasks, taskId).Some?
    ensures AfterToggle(tasks, taskId, Some(answer)) ==
      AfterUpdate(tasks, Some(tasks[FindById(tasks, taskId).value]), Some(answer))
  {
  }
}

=== FILE: due_order.dfy ===
/**
 * The order the list operation returns tasks in: ascending by due date, with
 * tasks that have no due date first (the store orders null before any date).
 */
module DueOrder {
  import opened Wrappers
  import opened TaskSchema

  /** `a` may come before `b` in an ascending due-date order. */
  predicate DueLe(a: Option<int>, b: Option<int>) {
    a.None? || (b.Some? && a.value <= b.value)
  }

  /** Any two due dates are comparable, and the order is transitive. */
  lemma DueLeTotalPreorder(a: Option<int>, b: Option<int>, c: Option<int>)
    ensures DueLe(a, a)
    ensures DueLe(a, b) || DueLe(b, a)
    ensures DueLe(a, b) && DueLe(b, c) ==> DueLe(a, c)
  {
  }

  /** No due date sorts before every due date. */
  lemma NoneFirst(b: Option<int>)
    ensures DueLe(None, b)
    ensures b.Some? ==> !DueLe(b, None)
  {
  }

  /** Non-decreasing by due date. */
  ghost predicate SortedByDue(s: seq<Task>) {
    forall i, j :: 0 <= i < j < |s| ==> DueLe(s[i].dueDate, s[j].dueDate)
  }

  /** Inserts `t` before the first task that is due strictly later than it. */
  function Insert(t: Task, s: seq<Task>): (r: seq<Task>)
    requires SortedByDue(s)
    ensures SortedByDue(r)
    ensures multiset(r) == multiset(s) + multiset{t}
    decreases |s|
  {
    if |s| == 0 then [t]
    else if DueLe(t.dueDate, s[0].dueDate) then [t] + s
    else
      var rest := Insert(t, s[1..]);
      assert s == [s[0]] + s[1..];
      HeadBelowInserted(t, s, rest);
      ConsSorted(s[0], rest);
      [s[0]] + rest
  }

  /** A head due no later than every element keeps a sorted tail sorted. */
  lemma ConsSorted(h: Task, rest: seq<Task>)
    requires SortedByDue(rest)
    requires forall x :: x in rest ==> DueLe(h.dueDate, x.dueDate)
    ensures SortedByDue([h] + rest)
  {
    var r := [h] + rest;
    forall i, j | 0 <= i < j < |r|
      ensures DueLe(r[i].dueDate, r[j].dueDate)
    {
      if i == 0 {
        assert r[j] == rest[j - 1];
      } else {
        assert r[i] == rest[i - 1] && r[j] == rest[j - 1];
      }
    }
  }

  /** When `t` goes after `s[0]`, `s[0]` is due no later than anything in the rest of the insertion. */
  lemma HeadBelowInserted(t: Task, s: seq<Task>, rest: seq<Task>)
    requires |s| > 0 && SortedByDue(s)
    requires !DueLe(t.dueDate, s[0].dueDate)
    requires multiset(rest) == multiset(s[1..]) + multiset{t}
    ensures forall x :: x in rest ==> DueLe(s[0].dueDate, x.dueDate)
  {
    forall x | x in rest
      ensures DueLe(s[0].dueDate, x.dueDate)
    {
      assert x in multiset(rest);
      if x != t {
        assert x in multiset(s[1..]);
        var k :| 0 <= k < |s[1..]| && s[1..][k] == x;
        assert s[k + 1] == x;
      }
    }
  }

  /** Sorts by due date (an insertion sort, so tasks with equal due dates keep their order). */
  function SortByDue(s: seq<Task>): (r: seq<Task>)
    ensures SortedByDue(r)
    ensures multiset(r) == multiset(s)
    ensures |r| == |s|
    decreases |s|
  {
    if |s| == 0 then []
    else
      assert s == [s[0]] + s[1..];
      Insert(s[0], SortByDue(s[1..]))
  }
}

=== FILE: seqs.dfy ===
/** Filtering and counting over sequences, as `Array.prototype.filter` and `.length` do. */
module Seqs {

  /** The elements of `s` that satisfy `p`, in their original order. */
  function Filter<T>(s: seq<T>, p: T -> bool): (r: seq<T>)
    ensures forall x :: x in r ==> p(x)
    ensures |r| <= |s|
    decreases |s|
  {
    if |s| == 0 then []
    else if p(s[0]) then [s[0]] + Filter(s[1..], p)
    else Filter(s[1..], p)
  }

  /** `a` can be obtained from `b` by deleting elements, keeping the order of the rest. */
  ghost predicate IsSubsequence<T>(a: seq<T>, b: seq<T>)
    decreases |b|
  {
    if |a| == 0 then true
    else if |b| == 0 then false
    else (a[0] == b[0] && IsSubsequence(a[1..], b[1..])) || IsSubsequence(a, b[1..])
  }

  /** Filtering keeps each element exactly as often as it occurs when it satisfies `p`, and drops it otherwise. */
  lemma {:induction false} FilterCounts<T>(s: seq<T>, p: T -> bool, x: T)
    ensures multiset(Filter(s, p))[x] == if p(x) then multiset(s)[x] else 0
    decreases |s|
  {
    if |s| > 0 {
      FilterCounts(s[1..], p, x);
      assert s == [s[0]] + s[1..];
    }
  }

  /** Membership in a filtered sequence, in both directions. */
  lemma FilterMembers<T>(s: seq<T>, p: T -> bool, x: T)
    ensures x in Filter(s, p) <==> x in s && p(x)
  {
    FilterCounts(s, p, x);
    assert x in Filter(s, p) <==> multiset(Filter(s, p))[x] > 0;
    assert x in s <==> multiset(s)[x] > 0;
  }

  /** Filtering preserves the relative order of what it keeps. */
  lemma {:induction false} FilterIsSubsequence<T>(s: seq<T>, p: T -> bool)
    ensures IsSubsequence(Filter(s, p), s)
    decreases |s|
  {
    if |s| > 0 {
      FilterIsSubsequence(s[1..], p);
      var r := Filter(s, p);
      if p(s[0]) {
        assert r[0] == s[0] && r[1..] == Filter(s[1..], p);
      } else if |r| > 0 {
        assert r == Filter(s[1..], p);
      }
    }
  }

  /** When every element satisfies `p`, filtering returns the sequence unchanged. */
  lemma {:induction false} FilterKeepsAll<T>(s: seq<T>, p: T -> bool)
    requires forall i :: 0 <= i < |s| ==> p(s[i])
    ensures Filter(s, p) == s
    decreases |s|
  {
    if |s| > 0 {
      FilterKeepsAll(s[1..], p);
      assert s == [s[0]] + s[1..];
    }
  }

  /** Filtering distributes over concatenation. */
  lemma {:induction false} FilterConcat<T>(a: seq<T>, b: seq<T>, p: T -> bool)
    ensures Filter(a + b, p) == Filter(a, p) + Filter(b, p)
    decreases |a|
  {
    if |a| > 0 {
      FilterConcat(a[1..], b, p);
      assert (a + b)[0] == a[0];
      assert (a + b)[1..] == a[1..] + b;
    } else {
      assert a + b == b;
    }
  }

  /** Two sequences of equal length that differ only at positions where `p` rejects both elements have the same filter. */
  lemma {:induction false} FilterAgree<T>(a: seq<T>, b: seq<T>, p: T -> bool)
    requires |a| == |b|
    requires forall i :: 0 <= i < |a| ==> a[i] == b[i] || (!p(a[i]) && !p(b[i]))
    ensures Filter(a, p) == Filter(b, p)
    decreases |a|
  {
    if |a| > 0 {
      FilterAgree(a[1..], b[1..], p);
    }
  }

  /** `s.filter(p).length`. */
  function Count<T>(s: seq<T>, p: T -> bool): (n: nat)
    ensures n <= |s|
  {
    |Filter(s, p)|
  }

  /** Counts under two exclusive predicates add up to at most the length, and to exactly the length when one of them always holds. */
  lemma {:induction false} CountExclusive<T>(s: seq<T>, p: T -> bool, q: T -> bool)
    requires forall i :: 0 <= i < |s| ==> !(p(s[i]) && q(s[i]))
    ensures Count(s, p) + Count(s, q) <= |s|
    ensures (forall i :: 0 <= i < |s| ==> p(s[i]) || q(s[i])) ==> Count(s, p) + Count(s, q) == |s|
    decreases |s|
  {
    if |s| > 0 {
      CountExclusive(s[1..], p, q);
    }
  }

  /** A stronger predicate counts no more elements. */
  lemma {:induction false} CountMonotone<T>(s: seq<T>, p: T -> bool, q: T -> bool)
    requires forall i :: 0 <= i < |s| ==> p(s[i]) ==> q(s[i])
    ensures Count(s, p) <= Count(s, q)
    decreases |s|
  {
    if |s| > 0 {
      CountMonotone(s[1..], p, q);
    }
  }
}

=== FILE: task_controller.dfy ===
/**
 * The task routes' handlers over an in-memory store: a sequence of task
 * documents in insertion (natural) order. The authenticated user id is a
 * trusted parameter; the id generator and the clock are parameters too.
 */
module TaskController {
  import opened Wrappers
  import opened TaskSchema
  import opened TaskQuery
  import opened DueOrder
  import opened Seqs

  type Store = seq<Task>

  /** The store after an operation together with what the operation answered. */
  datatype Reply<+T> = Reply(store: Store, result: Result<T, Error>)

  /** One exported row: the fields `title, description, priority, dueDate, completed`. */
  datatype Row = Row(
    title: string,
    description: Option<string>,
    priority: string,
    dueDate: Option<int>,
    completed: bool)

  /** No two stored tasks share an `_id` (the store's unique index). */
  ghost predicate UniqueIds(store: Store) {
    forall i, j :: 0 <= i < j < |store| ==> store[i].id != store[j].id
  }

  predicate HasId(store: Store, id: TaskId) {
    exists i :: 0 <= i < |store| && store[i].id == id
  }

  /** What every store built by `Create` and `Delete` satisfies. */
  ghost predicate ValidStore(store: Store) {
    && UniqueIds(store)
    && forall i :: 0 <= i < |store| ==> ValidTask(store[i])
  }

  // ---------------------------------------------------------------- create

  /**
   * Task creation: the request body is copied and its owner field is then
   * replaced by the authenticated id. The `_id` is the
   * body's when it supplies one, else `freshId`; an `_id` already stored is
   * refused by the unique index.
   */
  function Create(store: Store, user: UserId, body: Body, freshId: TaskId, now: int): (r: Reply<Task>)
    ensures r.result.Success? ==> r.result.value.userId == user
    ensures r.result.Success? ==> r.store == store + [r.result.value]
    ensures r.result.Failure? ==> r.store == store
    ensures r.result.Success? <==>
      && body.title.Some? && body.title.value != ""
      && (body.priority.Some? ==> IsPriority(body.priority.value))
      && (body.status.Some? ==> IsStatus(body.status.value))
      && user != ""
      && !HasId(store, body.id.GetOr(freshId))
    ensures r.result.Failure? && (body.title.None? || body.title.value == "") ==>
      r.result.error.ValidationError? && "title" in r.result.error.paths
    ensures r.result.Success? ==>
      && r.result.value.id == body.id.GetOr(freshId)
      && Some(r.result.value.title) == body.title
      && r.result.value.description == body.description
      && r.result.value.dueDate == body.dueDate.GetOr(None)
    ensures r.result.Success? ==> r.result.value.createdAt == now == r.result.value.updatedAt
    ensures r.result.Success? ==> r.result.value.priority == body.priority.GetOr(DefaultPriority)
    ensures r.result.Success? ==> r.result.value.status == body.status.GetOr(DefaultStatus)
    ensures r.result.Success? ==> r.result.value.completed == body.completed.GetOr(DefaultCompleted)
  {
    var id := body.id.GetOr(freshId);
    match Instantiate(body.(userId := Some(user)), id, now)
    case Failure(e) => Reply(store, Failure(e))
    case Success(t) =>
      if HasId(store, id) then Reply(store, Failure(DuplicateKey))
      else Reply(store + [t], Success(t))
  }

  /** Creation keeps every stored task valid and every `_id` unique. */
  lemma CreatePreservesValidStore(store: Store, user: UserId, body: Body, freshId: TaskId, now: int)
    requires ValidStore(store)
    ensures ValidStore(Create(store, user, body, freshId, now).store)
  {
    var r := Create(store, user, body, freshId, now);
    if r.result.Success? {
      var t := r.result.value;
      assert t == Instantiate(body.(userId := Some(user)), body.id.GetOr(freshId), now).value;
      assert !HasId(store, t.id);
      assert r.store[|store|] == t;
    }
  }

  /** Creation keeps every `_id` unique, whatever the stored tasks look like. */
  lemma CreatePreservesUniqueIds(store: Store, user: UserId, body: Body, freshId: TaskId, now: int)
    requires UniqueIds(store)
    ensures UniqueIds(Create(store, user, body, freshId, now).store)
  {
    var r := Create(store, user, body, freshId, now);
    if r.result.Success? {
      assert !HasId(store, r.result.value.id);
      assert r.store[|store|] == r.result.value;
    }
  }

  /** A body cannot choose the owner: any `userId` it carries is ignored. */
  lemma CreateIgnoresBodyOwner(store: Store, user: UserId, body: Body, spoofed: UserId, freshId: TaskId, now: int)
    ensures Create(store, user, body.(userId := Some(spoofed)), freshId, now) == Create(store, user, body, freshId, now)
  {
  }

  /** As written, creation does not derive `completed` from `status`. */
  lemma CreateDoesNotSyncCompleted(user: UserId, freshId: TaskId, now: int)
    requires user != ""
    ensures
      var r := Create([], user, Body(None, Some("t"), None, None, Some("completed"), None, None, None), freshId, now);
      r.result.Success? && r.result.value.status == "completed" && !r.result.value.completed
  {
  }

  // ------------------------------------------------------------------ list

  /**
   * The list operation: the stored tasks matching the query built from the
   * request parameters, in ascending due-date order.
   */
  function GetTasks(store: Store, user: UserId, status: Option<string>, priority: Option<string>, search: Option<string>): (r: seq<Task>)
    ensures SortedByDue(r)
    ensures forall t :: t in r ==> t.userId == user
    ensures forall t :: multiset(r)[t] ==
                        if Matches(BuildQuery(user, status, priority, search), t) then multiset(store)[t] else 0
  {
    var selected := Select(store, BuildQuery(user, status, priority, search));
    var sorted := SortByDue(selected);
    assert forall t :: t in sorted ==> t in selected by {
      forall t | t in sorted
        ensures t in selected
      {
        assert t in multiset(sorted);
      }
    }
    sorted
  }

  /** Membership in the list result: exactly the stored tasks the filters match. */
  lemma GetTasksMembers(store: Store, user: UserId, status: Option<string>, priority: Option<string>, search: Option<string>, t: Task)
    ensures t in GetTasks(store, user, status, priority, search) <==>
      t in store && Matches(BuildQuery(user, status, priority, search), t)
  {
    var r := GetTasks(store, user, status, priority, search);
    assert t in r <==> multiset(r)[t] > 0;
    assert t in store <==> multiset(store)[t] > 0;
  }

  /** Another user's task is never listed, whatever the filters. */
  lemma ListIsolation(store: Store, user: UserId, status: Option<string>, priority: Option<string>, search: Option<string>, t: Task)
    requires t.userId != user
    ensures t !in GetTasks(store, user, status, priority, search)
  {
  }

  /**
   * A created task shows up in its owner's unfiltered list, and every other
   * user's list, under any filters, holds the same tasks as before.
   */
  lemma CreateThenListed(store: Store, user: UserId, body: Body, freshId: TaskId, now: int,
                         other: UserId, status: Option<string>, priority: Option<string>, search: Option<string>)
    requires Create(store, user, body, freshId, now).result.Success?
    requires other != user
    ensures var r := Create(store, user, body, freshId, now);
      r.result.value in GetTasks(r.store, user, None, None, None)
    ensures var r := Create(store, user, body, freshId, now);
      multiset(GetTasks(r.store, other, status, priority, search)) == multiset(GetTasks(store, other, status, priority, search))
  {
    var r := Create(store, user, body, freshId, now);
    var t := r.result.value;
    assert multiset(r.store) == multiset(store) + multiset{t};
    GetTasksMembers(r.store, user, None, None, None, t);
    var before := GetTasks(store, other, status, priority, search);
    var after := GetTasks(r.store, other, status, priority, search);
    forall x
      ensures multiset(after)[x] == multiset(before)[x]
    {
      if x == t {
        assert !Matches(BuildQuery(other, status, priority, search), x);
      }
    }
    assert multiset(after) == multiset(before);
  }

  // ------------------------------------------------------- scoped lookup

  /** The lookup filter of update and delete: this id and this owner. */
  predicate OwnedWithId(t: Task, user: UserId, id: TaskId) {
    t.id == id && t.userId == user
  }

  /** The position of the first stored task with this id and this owner. */
  function FindOwned(store: Store, user: UserId, id: TaskId): (r: Option<nat>)
    ensures r.None? <==> forall i :: 0 <= i < |store| ==> !OwnedWithId(store[i], user, id)
    ensures r.Some? ==> r.value < |store| && OwnedWithId(store[r.value], user, id)
    ensures r.Some? ==> forall j :: 0 <= j < r.value ==> !OwnedWithId(store[j], user, id)
    decreases |store|
  {
    if |store| == 0 then None
    else if OwnedWithId(store[0], user, id) then Some(0)
    else
      match FindOwned(store[1..], user, id)
      case None => None
      case Some(k) => Some(k + 1)
  }

  // ---------------------------------------------------------------- update

  /**
   * The update document applied as given: every field the body carries
   * overwrites the stored one, the owner included, with no validation.
   * `createdAt` is immutable and `updatedAt` is refreshed.
   */
  function Patch(t: Task, body: Body, now: int): (r: Task)
    ensures r.id == t.id && r.createdAt == t.createdAt && r.updatedAt == now
    ensures r.title == body.title.GetOr(t.title)
    ensures r.description == (if body.description.Some? then body.description else t.description)
    ensures r.priority == body.priority.GetOr(t.priority)
    ensures r.status == body.status.GetOr(t.status)
    ensures r.dueDate == body.dueDate.GetOr(t.dueDate)
    ensures r.completed == body.completed.GetOr(t.completed)
    ensures r.userId == body.userId.GetOr(t.userId)
  {
    t.(title := body.title.GetOr(t.title),
       description := if body.description.Some? then body.description else t.description,
       priority := body.priority.GetOr(t.priority),
       status := body.status.GetOr(t.status),
       dueDate := body.dueDate.GetOr(t.dueDate),
       completed := body.completed.GetOr(t.completed),
       userId := body.userId.GetOr(t.userId),
       updatedAt := now)
  }

  /** Update of the requester's task with this id by the request body; the answer is the updated task. */
  function Update(store: Store, user: UserId, id: TaskId, body: Body, now: int): (r: Reply<Task>)
    ensures r.result.Failure? <==> forall i :: 0 <= i < |store| ==> !OwnedWithId(store[i], user, id)
    ensures r.result.Failure? ==> r.result.error == NotFound && r.store == store
    ensures |r.store| == |store|
    ensures r.result.Success? ==>
      exists i :: 0 <= i < |store| && OwnedWithId(store[i], user, id) &&
                  r.result.value == Patch(store[i], body, now) && r.store == store[i := r.result.value]
    ensures forall j :: 0 <= j < |store| && store[j].userId != user ==> r.store[j] == store[j]
  {
    match FindOwned(store, user, id)
    case None => Reply(store, Failure(NotFound))
    case Some(i) =>
      var t := Patch(store[i], body, now);
      Reply(store[i := t], Success(t))
  }

  /** An update never changes an `_id`, so it keeps the ids unique although it skips the validators. */
  lemma UpdatePreservesUniqueIds(store: Store, user: UserId, id: TaskId, body: Body, now: int)
    requires UniqueIds(store)
    ensures UniqueIds(Update(store, user, id, body, now).store)
  {
  }

  /** A clock that never runs behind creation keeps `updatedAt >= createdAt` after an update. */
  lemma UpdateTimestamps(store: Store, user: UserId, id: TaskId, body: Body, now: int)
    requires forall i :: 0 <= i < |store| ==> store[i].createdAt <= now
    ensures var r := Update(store, user, id, body, now);
      r.result.Success? ==> r.result.value.updatedAt == now >= r.result.value.createdAt
  {
  }

  /** As written, an update body may hand a task to another account. */
  lemma UpdateReassignsOwner(t: Task)
    requires t.userId == "alice"
    ensures
      var body := Body(None, None, None, None, None, None, None, Some("bob"));
      var r := Update([t], "alice", t.id, body, t.updatedAt);
      && r.result.Success?
      && r.store[0].userId == "bob"
      && GetTasks(r.store, "alice", None, None, None) == []
  {
  }

  /** As written, setting `status` through an update leaves `completed` as it was. */
  lemma UpdateLeavesCompletedStale(t: Task)
    requires !t.completed
    ensures
      var body := Body(None, None, None, None, Some("completed"), None, None, None);
      var r := Update([t], t.userId, t.id, body, t.updatedAt);
      r.result.Success? && r.result.value.status == "completed" && !r.result.value.completed
  {
  }

  // ---------------------------------------------------------------- delete

  /** Deletion of the first of the requester's tasks with this id. */
  function Delete(store: Store, user: UserId, id: TaskId): (r: Reply<()>)
    ensures r.result.Failure? <==> forall i :: 0 <= i < |store| ==> !OwnedWithId(store[i], user, id)
    ensures r.result.Failure? ==> r.result.error == NotFound && r.store == store
    ensures r.result.Success? ==> |r.store| == |store| - 1
    ensures r.result.Success? ==>
      exists i :: 0 <= i < |store| && OwnedWithId(store[i], user, id) && r.store == store[..i] + store[i + 1..]
  {
    match FindOwned(store, user, id)
    case None => Reply(store, Failure(NotFound))
    case Some(i) => Reply(store[..i] + store[i + 1..], Success(()))
  }

  /** A successful delete removes the first record matching the filter, and nothing else. */
  lemma DeleteRemovesOne(store: Store, user: UserId, id: TaskId)
    requires Delete(store, user, id).result.Success?
    ensures FindOwned(store, user, id).Some?
    ensures var i := FindOwned(store, user, id).value;
      multiset(Delete(store, user, id).store) + multiset{store[i]} == multiset(store)
  {
    RemoveAtMultiset(store, FindOwned(store, user, id).value);
  }

  lemma RemoveAtMultiset(s: seq<Task>, i: nat)
    requires i < |s|
    ensures multiset(s[..i] + s[i + 1..]) + multiset{s[i]} == multiset(s)
  {
    assert s == s[..i] + [s[i]] + s[i + 1..];
  }

  /** Position `k` of a sequence with position `i` cut out. */
  lemma RemoveAtIndex(s: seq<Task>, i: nat, k: nat)
    requires i < |s| && k < |s| - 1
    ensures (s[..i] + s[i + 1..])[k] == if k < i then s[k] else s[k + 1]
  {
  }

  /** Cutting one task out of a valid store leaves a valid store. */
  lemma RemoveAtValid(store: Store, i: nat)
    requires ValidStore(store) && i < |store|
    ensures ValidStore(store[..i] + store[i + 1..])
  {
    var s' := store[..i] + store[i + 1..];
    forall k | 0 <= k < |s'|
      ensures ValidTask(s'[k])
    {
      RemoveAtIndex(store, i, k);
    }
    RemoveAtUnique(store, i);
  }

  /** Cutting one task out of a store with unique ids keeps them unique. */
  lemma RemoveAtUnique(store: Store, i: nat)
    requires UniqueIds(store) && i < |store|
    ensures UniqueIds(store[..i] + store[i + 1..])
  {
    var s' := store[..i] + store[i + 1..];
    forall k1, k2 | 0 <= k1 < k2 < |s'|
      ensures s'[k1].id != s'[k2].id
    {
      RemoveAtIndex(store, i, k1);
      RemoveAtIndex(store, i, k2);
      var j1 := if k1 < i then k1 else k1 + 1;
      var j2 := if k2 < i then k2 else k2 + 1;
      assert j1 < j2 && s'[k1] == store[j1] && s'[k2] == store[j2];
    }
  }

  /** Deletion keeps a store valid. */
  lemma DeletePreservesValidStore(store: Store, user: UserId, id: TaskId)
    requires ValidStore(store)
    ensures ValidStore(Delete(store, user, id).store)
  {
    match FindOwned(store, user, id)
    case None =>
    case Some(i) => RemoveAtValid(store, i);
  }

  /** Deletion keeps the ids unique, whatever the stored tasks look like. */
  lemma DeletePreservesUniqueIds(store: Store, user: UserId, id: TaskId)
    requires UniqueIds(store)
    ensures UniqueIds(Delete(store, user, id).store)
  {
    match FindOwned(store, user, id)
    case None =>
    case Some(i) => RemoveAtUnique(store, i);
  }

  /** With unique ids, a deleted id is gone: deleting it again is `NotFound` and changes nothing. */
  lemma DeleteTwiceNotFound(store: Store, user: UserId, id: TaskId)
    requires UniqueIds(store)
    ensures var s' := Delete(store, user, id).store;
      Delete(s', user, id) == Reply(s', Failure(NotFound))
  {
    var r := Delete(store, user, id);
    if r.result.Success? {
      var i := FindOwned(store, user, id).value;
      var s' := r.store;
      forall k | 0 <= k < |s'|
        ensures !OwnedWithId(s'[k], user, id)
      {
        RemoveAtIndex(store, i, k);
      }
    }
  }

  /** With unique ids, a deleted task is no longer listed under any filters. */
  lemma DeleteThenNotListed(store: Store, user: UserId, id: TaskId,
                            status: Option<string>, priority: Option<string>, search: Option<string>, t: Task)
    requires UniqueIds(store)
    requires Delete(store, user, id).result.Success?
    requires t.id == id
    ensures t !in GetTasks(Delete(store, user, id).store, user, status, priority, search)
  {
    var s' := Delete(store, user, id).store;
    DeleteTwiceNotFound(store, user, id);
    GetTasksMembers(s', user, status, priority, search, t);
  }

  /**
   * Existence hiding: a missing id and an id owned by someone else produce
   * the same answer, `NotFound`, from update and from delete, and leave the
   * store as it was.
   */
  lemma NotFoundIndistinguishable(store: Store, user: UserId, id: TaskId, body: Body, now: int)
    requires UniqueIds(store)
    requires !HasId(store, id) || exists k :: 0 <= k < |store| && store[k].id == id && store[k].userId != user
    ensures Update(store, user, id, body, now) == Reply(store, Failure(NotFound))
    ensures Delete(store, user, id) == Reply(store, Failure(NotFound))
  {
    forall i | 0 <= i < |store|
      ensures !OwnedWithId(store[i], user, id)
    {
      if HasId(store, id) {
        var k :| 0 <= k < |store| && store[k].id == id && store[k].userId != user;
        if store[i].id == id {
          assert i == k;
        }
      }
    }
  }

  /** Update and delete never touch another user's task. */
  lemma MutationIsolation(store: Store, user: UserId, id: TaskId, body: Body, now: int, j: nat)
    requires j < |store| && store[j].userId != user
    ensures Update(store, user, id, body, now).store[j] == store[j]
    ensures store[j] in Delete(store, user, id).store
  {
    var r := Delete(store, user, id);
    if r.result.Success? {
      var i := FindOwned(store, user, id).value;
      if j < i {
        assert r.store[j] == store[j];
      } else {
        assert j != i;
        assert r.store[j - 1] == store[j];
      }
    }
  }

  // ---------------------------------------------------------------- export

  /** The five exported fields of a task. */
  function Project(t: Task): (r: Row)
    ensures r.title == t.title && r.description == t.description && r.priority == t.priority
    ensures r.dueDate == t.dueDate && r.completed == t.completed
  {
    Row(t.title, t.description, t.priority, t.dueDate, t.completed)
  }

  /** The rows, one per task, in order. */
  function ProjectAll(ts: seq<Task>): (r: seq<Row>)
    ensures |r| == |ts|
    ensures forall i :: 0 <= i < |ts| ==> r[i] == Project(ts[i])
  {
    seq(|ts|, i requires 0 <= i < |ts| => Project(ts[i]))
  }

  /**
   * All of the requester's tasks, projected for export; when there are none
   * the answer is `NoData` rather than an empty file.
   */
  function Export(store: Store, user: UserId): (r: Result<seq<Row>, Error>)
    ensures r.Failure? <==> forall i :: 0 <= i < |store| ==> store[i].userId != user
    ensures r.Failure? ==> r.error == NoData
    ensures r.Success? ==> |r.value| == |Select(store, Query(user, None, None, None))| > 0
    ensures r.Success? ==> forall row :: row in r.value ==>
      exists t :: t in store && t.userId == user && Project(t) == row
    ensures r.Success? ==> forall t :: t in store && t.userId == user ==> Project(t) in r.value
  {
    var owned := Select(store, Query(user, None, None, None));
    if |owned| == 0 then
      assert forall i :: 0 <= i < |store| ==> store[i].userId != user by {
        forall i | 0 <= i < |store|
          ensures store[i].userId != user
        {
          SelectMembers(store, Query(user, None, None, None), store[i]);
        }
      }
      Failure(NoData)
    else
      assert forall t :: t in owned ==> t in store && t.userId == user by {
        forall t | t in owned
          ensures t in store && t.userId == user
        {
          SelectMembers(store, Query(user, None, None, None), t);
        }
      }
      assert owned[0] in owned;
      ExportedRowsOwned(owned, store, user);
      OwnedTasksExported(owned, store, user);
      Success(ProjectAll(owned))
  }

  /** Every owned task of the store has its row among the projected rows of the owner's selection. */
  lemma OwnedTasksExported(owned: seq<Task>, store: Store, user: UserId)
    requires owned == Select(store, Query(user, None, None, None))
    ensures forall t :: t in store && t.userId == user ==> Project(t) in ProjectAll(owned)
  {
    forall t | t in store && t.userId == user
      ensures Project(t) in ProjectAll(owned)
    {
      SelectMembers(store, Query(user, None, None, None), t);
      var i :| 0 <= i < |owned| && owned[i] == t;
      assert ProjectAll(owned)[i] == Project(t);
    }
  }

  lemma ExportedRowsOwned(owned: seq<Task>, store: Store, user: UserId)
    requires forall t :: t in owned ==> t in store && t.userId == user
    ensures forall row :: row in ProjectAll(owned) ==> exists t :: t in store && t.userId == user && Project(t) == row
  {
    var rows := ProjectAll(owned);
    forall row | row in rows
      ensures exists t :: t in store && t.userId == user && Project(t) == row
    {
      var i :| 0 <= i < |rows| && rows[i] == row;
      assert owned[i] in owned;
    }
  }

  /** Export projects, in store order, a subsequence of the store holding each owned task as often as it is stored. */
  lemma ExportRowsPerTask(store: Store, user: UserId)
    requires Export(store, user).Success?
    ensures exists owned: seq<Task> ::
      && IsSubsequence(owned, store)
      && (forall t: Task :: multiset(owned)[t] == if t.userId == user then multiset(store)[t] else 0)
      && Export(store, user).value == ProjectAll(owned)
  {
    var owned := Select(store, Query(user, None, None, None));
    assert forall t: Task :: multiset(owned)[t] == if t.userId == user then multiset(store)[t] else 0;
  }

  /** Export has one row per task of the requester's unfiltered list. */
  lemma ExportMatchesList(store: Store, user: UserId)
    requires Export(store, user).Success?
    ensures |Export(store, user).value| == |GetTasks(store, user, None, None, None)|
  {
    var q := Query(user, None, None, None);
    assert BuildQuery(user, None, None, None) == q;
    assert |GetTasks(store, user, None, None, None)| == |multiset(GetTasks(store, user, None, None, None))|;
    assert multiset(GetTasks(store, user, None, None, None)) == multiset(Select(store, q));
    assert |Select(store, q)| == |multiset(Select(store, q))|;
  }
}

=== FILE: task_form.dfy ===
/**
 * The task form: its state when opened for a new task or for editing one, the
 * guarded select-box setters, and the payload it submits, together with what
 * the server makes of that payload.
 */
module TaskForm {
  import opened Wrappers
  import opened TaskSchema
  import opened TaskController
  import opened Dashboard

  /** The form's fields; the due date is the `yyyy-mm-dd` text of a date input. */
  datatype FormState = FormState(
    title: string,
    description: string,
    priority: string,
    status: string,
    dueDate: string)

  /** What `onSubmit` receives, and what is sent as the request body. */
  datatype Payload = Payload(
    title: string,
    description: string,
    priority: string,
    status: string,
    dueDate: string,
    completed: bool)

  /** The form's own priority default, which is not the schema's ("low"). */
  const FormDefaultPriority: string := "medium"

  /**
   * The state after the form's effect runs: blank for a new task; for an edit,
   * the task's fields, "medium" when its priority is empty, and the due date
   * reduced to its day by `toDay` (left empty when the task has none).
   */
  function InitialState(task: Option<ClientTask>, toDay: string -> string): (r: FormState)
    ensures task.None? ==> r == FormState("", "", "medium", "pending", "")
    ensures task.Some? ==>
      && r.title == task.value.title
      && r.description == task.value.description
      && r.status == task.value.status
    ensures task.Some? ==> r.priority == if task.value.priority == "" then "medium" else task.value.priority
    ensures task.Some? && task.value.dueDate == "" ==> r.dueDate == ""
    ensures task.Some? && task.value.dueDate != "" ==> r.dueDate == toDay(task.value.dueDate)
  {
    match task
    case None => FormState("", "", FormDefaultPriority, DefaultStatus, "")
    case Some(t) =>
      FormState(
        t.title,
        t.description,
        if t.priority == "" then FormDefaultPriority else t.priority,
        t.status,
        if t.dueDate == "" then "" else toDay(t.dueDate))
  }

  /** The priority select accepts only the three priorities; anything else leaves the state as it was. */
  function OnPriorityChange(s: FormState, value: string): (r: FormState)
    ensures IsPriority(value) ==> r == s.(priority := value)
    ensures !IsPriority(value) ==> r == s
  {
    if value == "low" || value == "medium" || value == "high" then s.(priority := value) else s
  }

  /** The status select accepts only "pending" and "completed". */
  function OnStatusChange(s: FormState, value: string): (r: FormState)
    ensures IsStatus(value) ==> r == s.(status := value)
    ensures !IsStatus(value) ==> r == s
  {
    if value == "pending" || value == "completed" then s.(status := value) else s
  }

  /** A valid priority and status stay valid through any select-box change. */
  lemma SettersKeepEnums(s: FormState, value: string)
    requires IsPriority(s.priority) && IsStatus(s.status)
    ensures IsPriority(OnPriorityChange(s, value).priority) && IsStatus(OnPriorityChange(s, value).status)
    ensures IsPriority(OnStatusChange(s, value).priority) && IsStatus(OnStatusChange(s, value).status)
  {
  }

  /** An edit form opened on a task with a valid status and a valid or empty priority starts with valid enums. */
  lemma InitialStateEnums(task: Option<ClientTask>, toDay: string -> string)
    requires task.Some? ==> IsStatus(task.value.status) && (task.value.priority == "" || IsPriority(task.value.priority))
    ensures IsPriority(InitialState(task, toDay).priority) && IsStatus(InitialState(task, toDay).status)
  {
  }

  /** The submitted payload: the form's fields, with `completed` derived from the status. */
  function SubmitPayload(s: FormState): (p: Payload)
    ensures p.completed <==> p.status == "completed"
    ensures p.title == s.title && p.description == s.description && p.priority == s.priority
    ensures p.status == s.status && p.dueDate == s.dueDate
  {
    Payload(s.title, s.description, s.priority, s.status, s.dueDate, s.status == "completed")
  }

  /**
   * Submitting an edit form unchanged sends the task's own title, description
   * and status, its priority when it has one, and a `completed` flag that
   * agrees with its status.
   */
  lemma EditSubmitUnchanged(t: ClientTask, toDay: string -> string)
    ensures var p := SubmitPayload(InitialState(Some(t), toDay));
      && p.title == t.title && p.description == t.description && p.status == t.status
      && (t.priority != "" ==> p.priority == t.priority)
      && (p.completed <==> t.status == "completed")
  {
  }

  /**
   * The body the server reads from a payload: every field present, no `_id`
   * or owner, and the due date cast by `castDate`.
   */
  function PayloadBody(p: Payload, castDate: string -> Option<int>): (b: Body)
    ensures b.id.None? && b.userId.None?
    ensures b.title == Some(p.title) && b.status == Some(p.status) && b.completed == Some(p.completed)
    ensures b.priority == Some(p.priority) && b.description == Some(p.description)
    ensures b.dueDate == Some(castDate(p.dueDate))
  {
    Body(None, Some(p.title), Some(p.description), Some(p.priority), Some(p.status),
         Some(castDate(p.dueDate)), Some(p.completed), None)
  }

  /** A task created from the form has `completed` in step with `status`, although the server does not enforce it. */
  lemma FormCreateInSync(store: Store, user: UserId, s: FormState, castDate: string -> Option<int>, freshId: TaskId, now: int)
    ensures var r := Create(store, user, PayloadBody(SubmitPayload(s), castDate), freshId, now);
      r.result.Success? ==> (r.result.value.completed <==> r.result.value.status == "completed")
  {
  }

  /** An update sent from the form also leaves `completed` in step with `status`. */
  lemma FormUpdateInSync(store: Store, user: UserId, id: TaskId, s: FormState, castDate: string -> Option<int>, now: int)
    ensures var r := Update(store, user, id, PayloadBody(SubmitPayload(s), castDate), now);
      r.result.Success? ==> (r.result.value.completed <==> r.result.value.status == "completed")
  {
  }

  /** A new task left at the form's defaults is stored as "medium" priority and "pending", not at the schema's "low". */
  lemma NewFormStoresMedium(user: UserId, title: string, castDate: string -> Option<int>, freshId: TaskId, now: int)
    requires user != "" && title != ""
    ensures
      var s := InitialState(None, x => x).(title := title);
      var r := Create([], user, PayloadBody(SubmitPayload(s), castDate), freshId, now);
      && r.result.Success?
      && r.result.value.priority == "medium" && r.result.value.status == "pending"
      && !r.result.value.completed
  {
  }

  /** A form submitted with an empty title is refused by the server's required-title rule. */
  lemma EmptyTitleRefused(store: Store, user: UserId, s: FormState, castDate: string -> Option<int>, freshId: TaskId, now: int)
    requires s.title == ""
    ensures var r := Create(store, user, PayloadBody(SubmitPayload(s), castDate), freshId, now);
      && r.result.Failure? && r.result.error.ValidationError? && "title" in r.result.error.paths
      && r.store == store
  {
  }
}

=== FILE: task_query.dfy ===
/**
 * The list query: a pure builder from the optional `status`, `priority` and
 * `search` request parameters to a query whose owner predicate is fixed by the
 * authenticated user, and the meaning of that query on one task.
 */
module TaskQuery {
  import opened Wrappers
  import opened Text
  import opened TaskSchema
  import opened Seqs

  /**
   * A conjunction of predicates. The owner predicate is a plain field, so no
   * query can be built without it; the others are present or absent.
   */
  datatype Query = Query(
    owner: UserId,
    completed: Option<bool>,
    priority: Option<string>,
    search: Option<string>)

  /** JavaScript truthiness of an optional query-string value: absent and "" are both false. */
  function Present(v: Option<string>): (r: Option<string>)
    ensures r.Some? <==> v.Some? && v.value != ""
    ensures r.Some? ==> r == v
  {
    if v.Some? && v.value != "" then v else None
  }

  /** The status parameter tests the `completed` flag, not the `status` field. */
  function CompletedConstraint(status: Option<string>): (r: Option<bool>)
    ensures status == Some("completed") <==> r == Some(true)
    ensures status == Some("pending") <==> r == Some(false)
  {
    if status == Some("completed") then Some(true)
    else if status == Some("pending") then Some(false)
    else None
  }

  /** Builds the query for `user` from the request's optional parameters. */
  function BuildQuery(user: UserId, status: Option<string>, priority: Option<string>, search: Option<string>): (q: Query)
    ensures q.owner == user
    ensures q.completed == CompletedConstraint(status)
    ensures q.priority == Present(priority)
    ensures q.search == Present(search)
  {
    Query(user, CompletedConstraint(status), Present(priority), Present(search))
  }

  /** `term` occurs case-insensitively in the title or in the description (a missing description never matches). */
  predicate MatchesSearch(term: string, t: Task) {
    || ContainsIgnoreCase(t.title, term)
    || (t.description.Some? && ContainsIgnoreCase(t.description.value, term))
  }

  /** A task satisfies the query when it satisfies every present predicate. */
  predicate Matches(q: Query, t: Task) {
    && t.userId == q.owner
    && (q.completed.Some? ==> t.completed == q.completed.value)
    && (q.priority.Some? ==> t.priority == q.priority.value)
    && (q.search.Some? ==> MatchesSearch(q.search.value, t))
  }

  /** The tasks of `store` that satisfy `q`, each as often as it occurs, in store order. */
  function Select(store: seq<Task>, q: Query): (r: seq<Task>)
    ensures forall t :: multiset(r)[t] == if Matches(q, t) then multiset(store)[t] else 0
    ensures forall t :: t in r ==> Matches(q, t)
    ensures |r| <= |store|
    ensures IsSubsequence(r, store)
  {
    var r := Filter(store, t => Matches(q, t));
    FilterIsSubsequence(store, t => Matches(q, t));
    assert forall t :: multiset(r)[t] == if Matches(q, t) then multiset(store)[t] else 0 by {
      forall t
        ensures multiset(r)[t] == if Matches(q, t) then multiset(store)[t] else 0
      {
        FilterCounts(store, t => Matches(q, t), t);
      }
    }
    r
  }

  /** Membership in the selection: exactly the stored tasks the query matches. */
  lemma SelectMembers(store: seq<Task>, q: Query, t: Task)
    ensures t in Select(store, q) <==> t in store && Matches(q, t)
  {
    var r := Select(store, q);
    assert t in r <==> multiset(r)[t] > 0;
    assert t in store <==> multiset(store)[t] > 0;
  }

  /**
   * The built query, stated in terms of the raw parameters: the owner always,
   * and each filter only when its parameter is given and non-empty, all
   * combined by conjunction.
   */
  lemma MatchesBuiltQuery(user: UserId, status: Option<string>, priority: Option<string>, search: Option<string>, t: Task)
    ensures Matches(BuildQuery(user, status, priority, search), t) <==>
      && t.userId == user
      && (status == Some("completed") ==> t.completed)
      && (status == Some("pending") ==> !t.completed)
      && (priority.Some? && priority.value != "" ==> t.priority == priority.value)
      && (search.Some? && search.value != "" ==> MatchesSearch(search.value, t))
  {
  }

  /** Whatever the parameters, only the requester's tasks match. */
  lemma OwnerPredicateAlways(user: UserId, status: Option<string>, priority: Option<string>, search: Option<string>, t: Task)
    requires Matches(BuildQuery(user, status, priority, search), t)
    ensures t.userId == user
  {
  }

  /** `status=completed` keeps exactly the completed tasks among those the other filters keep. */
  lemma CompletedFilterExact(user: UserId, priority: Option<string>, search: Option<string>, t: Task)
    ensures Matches(BuildQuery(user, Some("completed"), priority, search), t) <==>
      t.completed && Matches(BuildQuery(user, None, priority, search), t)
  {
  }

  /** `status=pending` keeps exactly the tasks whose flag is false. */
  lemma PendingFilterExact(user: UserId, priority: Option<string>, search: Option<string>, t: Task)
    ensures Matches(BuildQuery(user, Some("pending"), priority, search), t) <==>
      !t.completed && Matches(BuildQuery(user, None, priority, search), t)
  {
  }

  /** Any other status value, like an absent one, adds no constraint. */
  lemma OtherStatusNoConstraint(user: UserId, status: string, priority: Option<string>, search: Option<string>, t: Task)
    requires status != "completed" && status != "pending"
    ensures Matches(BuildQuery(user, Some(status), priority, search), t) ==
      Matches(BuildQuery(user, None, priority, search), t)
  {
  }

  /** A given priority keeps exactly the tasks of that priority. */
  lemma PriorityFilterExact(user: UserId, status: Option<string>, priority: string, search: Option<string>, t: Task)
    requires priority != ""
    ensures Matches(BuildQuery(user, status, Some(priority), search), t) <==>
      t.priority == priority && Matches(BuildQuery(user, status, None, search), t)
  {
  }

  /** A given search term keeps exactly the tasks whose title or description contains it. */
  lemma SearchFilterExact(user: UserId, status: Option<string>, priority: Option<string>, term: string, t: Task)
    requires term != ""
    ensures Matches(BuildQuery(user, status, priority, Some(term)), t) <==>
      MatchesSearch(term, t) && Matches(BuildQuery(user, status, priority, None), t)
  {
  }
}

=== FILE: task_schema.dfy ===
/**
 * The Task document: its fields, the schema's enumerations, defaults and
 * required fields, and the validation Mongoose runs when a task is created.
 */
module TaskSchema {
  import opened Wrappers

  type UserId = string
  type TaskId = string

  /** The values the schema's `priority` enumeration admits. */
  datatype Priority = Low | Medium | High

  /** The values the schema's `status` enumeration admits. */
  datatype Status = Pending | Completed

  function PriorityName(p: Priority): string {
    match p
    case Low => "low"
    case Medium => "medium"
    case High => "high"
  }

  function ParsePriority(s: string): (r: Option<Priority>)
    ensures r.Some? ==> PriorityName(r.value) == s
  {
    if s == "low" then Some(Low)
    else if s == "medium" then Some(Medium)
    else if s == "high" then Some(High)
    else None
  }

  function StatusName(s: Status): string {
    match s
    case Pending => "pending"
    case Completed => "completed"
  }

  function ParseStatus(s: string): (r: Option<Status>)
    ensures r.Some? ==> StatusName(r.value) == s
  {
    if s == "pending" then Some(Pending)
    else if s == "completed" then Some(Completed)
    else None
  }

  /** Every enumeration value is recognised under its own name. */
  lemma PriorityRoundTrip(p: Priority)
    ensures ParsePriority(PriorityName(p)) == Some(p)
  {
  }

  lemma StatusRoundTrip(s: Status)
    ensures ParseStatus(StatusName(s)) == Some(s)
  {
  }

  /** A string passes the priority enum validator exactly when it is one of the three names. */
  predicate IsPriority(s: string) {
    ParsePriority(s).Some?
  }

  predicate IsStatus(s: string) {
    ParseStatus(s).Some?
  }

  const DefaultPriority: string := "low"
  const DefaultStatus: string := "pending"
  const DefaultCompleted: bool := false

  /**
   * A stored task document. `priority` and `status` hold the strings the store
   * holds; only creation checks them against the enumerations. `dueDate` is a
   * point in time (an abstract integer), absent when no due date was given.
   */
  datatype Task = Task(
    id: TaskId,
    title: string,
    description: Option<string>,
    priority: string,
    status: string,
    dueDate: Option<int>,
    completed: bool,
    userId: UserId,
    createdAt: int,
    updatedAt: int)

  /**
   * The fields of a request body that the schema knows; a missing field is
   * `None`. Unknown fields are dropped by the schema and do not appear here.
   */
  datatype Body = Body(
    id: Option<TaskId>,
    title: Option<string>,
    description: Option<string>,
    priority: Option<string>,
    status: Option<string>,
    dueDate: Option<Option<int>>,
    completed: Option<bool>,
    userId: Option<UserId>)

  /** The failures the task operations report. */
  datatype Error =
    | ValidationError(paths: set<string>)   // schema validation failed on these fields
    | DuplicateKey                          // an `_id` already present in the store
    | NotFound                              // no task with this id owned by the requester
    | NoData                                 // nothing to export

  /** What every task created through the schema satisfies. */
  predicate ValidTask(t: Task) {
    && t.title != ""
    && IsPriority(t.priority)
    && IsStatus(t.status)
    && t.userId != ""
    && t.createdAt <= t.updatedAt
  }

  /** The fields of `body` that fail the schema's `required` and `enum` validators. */
  function FailingPaths(body: Body): (r: set<string>)
    ensures "title" in r <==> body.title.None? || body.title.value == ""
    ensures "priority" in r <==> body.priority.Some? && !IsPriority(body.priority.value)
    ensures "status" in r <==> body.status.Some? && !IsStatus(body.status.value)
    ensures "userId" in r <==> body.userId.None? || body.userId.value == ""
    ensures r <= {"title", "priority", "status", "userId"}
  {
    (if body.title.None? || body.title.value == "" then {"title"} else {})
    + (if body.priority.Some? && !IsPriority(body.priority.value) then {"priority"} else {})
    + (if body.status.Some? && !IsStatus(body.status.value) then {"status"} else {})
    + (if body.userId.None? || body.userId.value == "" then {"userId"} else {})
  }

  /**
   * Builds the document `Task.create` would insert from `body`: defaults fill
   * the absent fields, validators reject missing required fields and values
   * outside the enumerations, and both timestamps are set to `now`.
   */
  function Instantiate(body: Body, id: TaskId, now: int): (r: Result<Task, Error>)
    ensures r.Failure? <==> FailingPaths(body) != {}
    ensures r.Failure? ==> r.error == ValidationError(FailingPaths(body))
    ensures r.Success? ==> ValidTask(r.value)
    ensures r.Success? ==>
      && r.value.id == id
      && Some(r.value.title) == body.title
      && r.value.description == body.description
      && r.value.dueDate == body.dueDate.GetOr(None)
      && Some(r.value.userId) == body.userId
      && r.value.createdAt == now == r.value.updatedAt
    ensures r.Success? ==> r.value.priority == body.priority.GetOr(DefaultPriority)
    ensures r.Success? ==> r.value.status == body.status.GetOr(DefaultStatus)
    ensures r.Success? ==> r.value.completed == body.completed.GetOr(DefaultCompleted)
  {
    var failing := FailingPaths(body);
    if failing != {} then
      Failure(ValidationError(failing))
    else
      Success(Task(
        id := id,
        title := body.title.value,
        description := body.description,
        priority := body.priority.GetOr(DefaultPriority),
        status := body.status.GetOr(DefaultStatus),
        dueDate := body.dueDate.GetOr(None),
        completed := body.completed.GetOr(DefaultCompleted),
        userId := body.userId.value,
        createdAt := now,
        updatedAt := now))
  }

  /** The defaults: a body with only a title and an owner yields a low-priority pending, uncompleted task. */
  lemma DefaultsApplied(title: string, owner: UserId, id: TaskId, now: int)
    requires title != "" && owner != ""
    ensures
      var r := Instantiate(Body(None, Some(title), None, None, None, None, None, Some(owner)), id, now);
      && r.Success?
      && ParsePriority(r.value.priority) == Some(Low)
      && ParseStatus(r.value.status) == Some(Pending)
      && !r.value.completed
  {
  }
}

=== FILE: text.dfy ===
/**
 * Case-insensitive substring search, shared by the server-side `$regex` search
 * (with the `i` option) and the client-side `toLowerCase().includes(...)` filter.
 * Case folding is ASCII only; the search term is treated as a literal string.
 */
module Text {

  /** ASCII lower-casing of one character; every other character is kept. */
  function LowerChar(c: char): (r: char)
    ensures 'A' <= c <= 'Z' ==> r as int == c as int + 32
    ensures !('A' <= c <= 'Z') ==> r == c
    ensures !('A' <= r <= 'Z')
  {
    if 'A' <= c <= 'Z' then (c as int + 32) as char else c
  }

  /** `s.toLowerCase()`, restricted to ASCII letters. */
  function Lower(s: string): (r: string)
    ensures |r| == |s|
    ensures forall i :: 0 <= i < |s| ==> r[i] == LowerChar(s[i])
  {
    seq(|s|, i requires 0 <= i < |s| => LowerChar(s[i]))
  }

  /** Lower-casing twice is lower-casing once. */
  lemma LowerIdempotent(s: string)
    ensures Lower(Lower(s)) == Lower(s)
  {
  }

  /** `needle` occurs in `hay` starting at position `i`. */
  ghost predicate OccursAt(hay: string, needle: string, i: int) {
    0 <= i && i + |needle| <= |hay| && hay[i..i + |needle|] == needle
  }

  /** The reference meaning of substring containment. */
  ghost predicate IsSubstring(needle: string, hay: string) {
    exists i :: OccursAt(hay, needle, i)
  }

  /** `hay.includes(needle)`, computed by scanning every start position. */
  function Contains(hay: string, needle: string): bool
    decreases |hay|
  {
    if |needle| <= |hay| && hay[..|needle|] == needle then true
    else if |hay| == 0 then false
    else Contains(hay[1..], needle)
  }

  /** The scanning search agrees with the reference definition, in both directions. */
  lemma {:induction false} ContainsIsSubstring(hay: string, needle: string)
    ensures Contains(hay, needle) <==> IsSubstring(needle, hay)
    decreases |hay|
  {
    if |needle| <= |hay| && hay[..|needle|] == needle {
      assert OccursAt(hay, needle, 0);
    } else if |hay| == 0 {
      assert !OccursAt(hay, needle, 0);
    } else {
      ContainsIsSubstring(hay[1..], needle);
      if Contains(hay[1..], needle) {
        var i :| OccursAt(hay[1..], needle, i);
        assert hay[i + 1..i + 1 + |needle|] == hay[1..][i..i + |needle|];
        assert OccursAt(hay, needle, i + 1);
      }
      if IsSubstring(needle, hay) {
        assert !OccursAt(hay, needle, 0);
        var i :| OccursAt(hay, needle, i);
        assert hay[1..][i - 1..i - 1 + |needle|] == hay[i..i + |needle|];
        assert OccursAt(hay[1..], needle, i - 1);
      }
    }
  }

  /** Every string contains the empty string (`"abc".includes("")` is true). */
  lemma EmptyAlwaysContained(hay: string)
    ensures Contains(hay, "")
  {
    assert hay[..0] == "";
  }

  /** Case-insensitive containment: both sides lower-cased before the search. */
  function ContainsIgnoreCase(hay: string, needle: string): bool {
    Contains(Lower(hay), Lower(needle))
  }

  /** Lower-casing the term in advance does not change a case-insensitive search. */
  lemma IgnoreCaseOfLoweredTerm(hay: string, needle: string)
    ensures ContainsIgnoreCase(hay, Lower(needle)) == ContainsIgnoreCase(hay, needle)
  {
    LowerIdempotent(needle);
  }

  /** A case-insensitive match is a literal occurrence of the lowered term in the lowered text. */
  lemma IgnoreCaseMeaning(hay: string, needle: string)
    ensures ContainsIgnoreCase(hay, needle) <==> IsSubstring(Lower(needle), Lower(hay))
  {
    ContainsIsSubstring(Lower(hay), Lower(needle));
  }
}

=== FILE: wrappers.dfy ===
/** Option and Result, shared by the task model. */
module Wrappers {

  /** An optional value: a field that may be absent from a record or a request. */
  datatype Option<+T> = None | Some(value: T) {

    /** The wrapped value, or `default` when absent (a schema default). */
    function GetOr(default: T): T {
      match this
      case Some(v) => v
      case None => default
    }
  }

  /** The outcome of an operation that can fail with a typed error. */
  datatype Result<+R, +E> = Success(value: R) | Failure(error: E)
}
